=== FILE: README.md ===
# DSA Racing Simulator: a Dafny model of the game logic

The DSA Racing Simulator is a single-session quiz race written as a
Streamlit app (`main.py`). A car dodges approaching obstacles when the player
types the correct one-line answer to a short coding question. Wrong answers
can cost lives, every third consecutive correct answer grants a bonus life, and
a running high score is kept.

This project models the logic under the UI as pure functions over an immutable
`GameState`:

- `Lives`, `Queues`, `ScoreStacks`, `Leaderboards`: the four bookkeeping
  containers (`LivesLinkedList`, `QuestionQueue`, `ScoreStack`, `Leaderboard`).
- `Text`: Python's `strip()`, `lower()`, `replace(" ", "")` and the string
  `in` test. These are the primitives of `check_answer` and of the question
  filter.
- `Questions`: `QuestionManager`, covering difficulty keys, group matching,
  `prepare_questions` and `check_answer`.
- `QuestionBank`: the literal question catalog of `_load_questions`.
- `Game`: the session state and the step functions `start_game`,
  `next_question`, `spawn_obstacle`, `update_game` (`Tick`), `submit_answer`,
  the game-over `add_score` call and the return to the menu.
- `GameInvariant`: an invariant that every step keeps, plus what one submission
  followed by one tick does.

Randomness and time are explicit parameters:

- `elapsed` is the whole number of seconds since the question appeared.
- `lanePick` indexes the three lanes.
- `speed` is the value `randint(3, 7)` drew.
- `dodgePick` indexes the two lanes left after the obstacle's lane is removed.
- `pick` indexes the matching groups in topic-wise mode.
- `shuffled` is any permutation of the available questions.

Each of these values is constrained by a `requires` clause to the range the
random source can produce.

The model follows the code, also where the code and its own comments and help
text disagree (main.py:348, main.py:416). Behaviours a reader might not expect:

- Difficulty keys are matched as substrings. "easy" occurs inside "very_easy",
  so Easy runs also draw the Very Easy groups (`Questions.EasyAdmitsVeryEasy`).
- Normalisation removes only U+0020 spaces. Tabs and newlines inside an answer
  are kept (`Questions.TabInsideAnswerRejected`).
- A wrong answer does not guarantee a crash, although the comment at
  main.py:348 and the help text at main.py:416 say it does. The car stays in
  its lane, and the next arrival costs a life only if the obstacle was spawned in that lane
  (`GameInvariant.WrongAnswerThenArrival`).
- `start_game` does not reset the car lane, the feedback banner or the score
  history. After a restart the history's top can still hold the previous
  run's score until the first correct answer.

## Model

| member | source | states |
|---|---|---|
| Lives.AddLife | main.py:32-41 | the count rises by exactly one, a valid pool stays valid (counter equals chain length) and is non-empty afterwards |
| Lives.RemoveLife | main.py:43-48 | reports true exactly when the pool had a life; then the count drops by exactly one; otherwise the pool is unchanged with count 0; the count never goes negative |
| Lives.Make | main.py:26-30 | a fresh pool is valid and holds `initial` lives, or none when `initial` is not positive |
| Lives.HasLivesIffHead | main.py:43-54 | for a valid pool, `has_lives` (count > 0) agrees with the head test `remove_life` uses |
| Queues.Enqueue | main.py:62-63 | the item goes to the back, every earlier item keeps its position, size grows by one |
| Queues.Dequeue | main.py:65-66 | an empty queue yields None and stays as it is; otherwise the front item comes out and the rest keeps its order |
| Queues.EnqueueAll | main.py:179-180 | enqueuing a list appends exactly that list, in order |
| Queues.Drain | main.py:65-66 | dequeuing until None yields exactly the queued items in queue order |
| Queues.FifoOrder | main.py:57-66 | whatever is enqueued comes back out in the same order |
| Queues.EnqueueThenDequeue | main.py:62-66 | adding at the back never changes which item is dequeued next |
| ScoreStacks.Peek | main.py:80-81 | an empty history peeks as 0; otherwise the result is one of the recorded scores |
| ScoreStacks.Push | main.py:77-78 | the history grows by one, keeps every earlier entry, and peek then returns the pushed score |
| Leaderboards.AddScore | main.py:90-95 | returns true iff the score beats the high score strictly; the new high score is the larger of the two, so it never decreases |
| Leaderboards.AddAllIsMax | main.py:86-95 | after any sequence of scores the high score is the maximum of the starting value and all of them |
| Leaderboards.AddAllMonotone | main.py:86-95 | the high score never decreases over any sequence of calls |
| Text.SkipLeading | main.py:191-192 | the first non-whitespace index at or after the start, with only whitespace skipped |
| Text.SkipTrailing | main.py:191-192 | the end of the last non-whitespace character, with only whitespace cut off |
| Text.Strip | main.py:191-192 | the stripped string has no whitespace at either end and is no longer than the input |
| Text.StripCut | main.py:191-192 | any split into whitespace, a stripped middle and whitespace is the split `strip()` makes |
| Text.StripSplit | main.py:191-192 | every string is leading whitespace, its stripped form, then trailing whitespace |
| Text.StripOfPadded | main.py:191-192 | stripping whitespace-padded stripped text returns that text |
| Text.StripEmptyIff | main.py:191-192 | `strip()` yields the empty string exactly when the input is all whitespace |
| Text.Lower | main.py:191-192 | same length, each character lowercased on its own |
| Text.RemoveSpaces | main.py:191-192 | the result has no U+0020, and holds the input's other characters with the same multiplicities |
| Text.RemoveSpacesAppend | main.py:191-192 | space removal distributes over concatenation, so order is preserved |
| Text.Normalize | main.py:191-192 | a normalised answer has no spaces, no upper-case letters and no whitespace at either end |
| Text.NormalizeIdempotent | main.py:191-192 | normalising twice equals normalising once |
| Text.NormalizeIgnoresCase | main.py:191-192 | lowercasing the input first does not change the normal form |
| Text.StripIgnoresPadding | main.py:191-192 | whitespace added around the input is removed again by `strip()` |
| Text.NormalizeIgnoresPadding | main.py:191-192 | whitespace added around the input does not change the normal form |
| Text.NormalizeIgnoresSpaces | main.py:191-192 | deleting spaces from the input first does not change the normal form |
| Text.StripKeepsOnlyInput | main.py:191-192 | `strip()` only removes characters, so every character of the result occurs in the input |
| Text.LowerKeepsWhitespaceChar | main.py:191-192 | lowercasing keeps each whitespace character present or absent exactly as in the input |
| Text.RemoveSpacesKeepsChar | main.py:191-192 | after `replace(" ", "")` a character other than U+0020 occurs iff it occurred before |
| Text.NormalizeKeepsInnerWhitespace | main.py:191-192 | a non-space whitespace character inside stripped text is still there after normalisation |
| Text.NormalizeAddsNoWhitespace | main.py:191-192 | normalisation never introduces a whitespace character |
| Text.IsSubstring | main.py:169 | true iff the needle occurs at some index of the haystack |
| Text.SubstringTransitive | main.py:164-173 | a substring of a substring is a substring |
| Questions.DiffKey | main.py:164-165 | "Very Easy" gives very_easy, "Hard" gives hard, and every other label, "Easy" included, falls back to easy |
| Questions.Matching | main.py:167-173 | exactly the catalog groups whose key contains the difficulty key, and no others |
| Questions.Pooled | main.py:167-170 | the pooled list holds exactly the questions of the given groups |
| Questions.MatchingAppend | main.py:167-173 | filtering a concatenation filters each part, so each passing group is kept exactly once and in catalog order |
| Questions.MatchingOne | main.py:169 | a single group is kept iff its key contains the difficulty key |
| Questions.PooledAppend | main.py:167-170 | pooling a concatenation pools each part, so every question appears exactly as often as the groups hold it, in order |
| Questions.PooledOne | main.py:170 | a single group pools to exactly its own questions |
| Questions.AvailableDrawnFrom | main.py:159-176 | every available question belongs to a group whose key contains the difficulty key |
| Questions.PrepareQuestions | main.py:159-180 | queue length is min(15, available); the queue is a prefix of the shuffled list and a sub-multiset of the available questions, all from matching groups; topic-wise draws from the single picked group, or nothing when no group matches |
| Questions.CheckAnswer | main.py:187-193 | false with no current question; otherwise true iff the normalised forms agree; the stored answer itself is always accepted |
| Questions.CheckAnswerTolerance | main.py:187-193 | the verdict does not change when the answer is lowercased, padded with whitespace or has its spaces removed |
| Questions.InnerWhitespaceRejected | main.py:187-193 | a stripped submission holding a tab, newline or other non-space whitespace character is rejected when the stored answer lacks that character |
| Questions.TabInsideAnswerRejected | main.py:187-193 | "return\tmax(arr)" does not answer the catalog's "return max(arr)" |
| Questions.NormalizedAnswerAccepted | main.py:187-193 | the normal form of the stored answer is accepted |
| Questions.EasyAdmitsVeryEasy | main.py:164-173 | every group the Very Easy filter selects is also selected by the Easy filter, and every question of a mixed Very Easy pool is in the mixed Easy pool |
| QuestionBank.EasyRunAdmitsArraysVeryEasy | main.py:112-173 | the catalog's "arrays_very_easy" group passes the Easy filter |
| Game.PointsBounds | main.py:326-327 | a correct answer earns between 20 and 30 points, and a faster answer never earns fewer |
| Game.OtherLanes | main.py:321-322 | the obstacle's lane is removed, and the rest together with it are exactly the three lanes |
| Game.NextQuestion | main.py:259-268 | with questions left, the front one becomes current, the queue loses only it, and the timer limit is set for the difficulty; with none left the run ends; nothing else changes |
| Game.SpawnObstacle | main.py:271-277 | the obstacle is approaching from distance 100 in the drawn lane at the drawn speed, which lies in 3..7; nothing else changes |
| Game.Start | main.py:238-256 | three lives, zeroed counters and distance; playing iff any question is available; then the first shuffled question is current with its time limit set and the queue holds the next min(15, available) - 1 in shuffled order, else nothing is current, the queue is empty and the time limit is unchanged; the current question is from a matching group; a new obstacle at 100 in the drawn lane at the drawn speed; car lane, feedback, score history and high score unchanged |
| Game.Tick | main.py:280-305 | nothing happens outside play; otherwise the obstacle closes in by its speed; on arrival a shared lane removes a life and resets the streak; the last life lost ends the run and changes nothing but phase, lives, streak, feedback, the obstacle's position and the distance travelled; otherwise a new obstacle approaches from 100 and the front question is dequeued and timed with the run still in play, or, with the queue empty, the run ends with no question current and the time limit unchanged; score, counters, catalog, difficulty and mode untouched |
| Game.Dodge | main.py:318-345 | the car lands in a lane other than the obstacle's; score rises by 20 plus the time bonus; streak and correct count rise by one; a life is added iff the new streak is a multiple of 3; the history grows by the new score, which is on top; the obstacle is set to -10; nothing else changes |
| Game.Submit | main.py:308-352 | an empty answer changes nothing; any other answer is counted; a correct one takes the dodge branch; a wrong one resets only the streak and shows the expected answer; score never drops, and phase, question, queue and the obstacle's lane and speed are untouched |
| Game.RecordResult | main.py:718 | reports a new record iff the final score beats the high score; the high score becomes exactly the larger of the two; nothing else changes |
| Game.ToMenu | main.py:509-512 | back to the menu with the run state left as it is |
| GameInvariant.InitInv | main.py:200-235 | the initial session state satisfies the run invariant |
| GameInvariant.StartInv | main.py:238-256 | starting a run keeps the invariant |
| GameInvariant.TickInv | main.py:280-305 | a tick keeps the invariant: streak <= correct <= answered, 20-30 points per correct answer, history top equals score once the run has a correct answer, queue at most 15, speed 3..7, a life and a question while playing |
| GameInvariant.PlayingCanSubmit | main.py:347-349 | during play a question is always current, so the wrong-answer branch never reads a missing question |
| GameInvariant.SubmitInv | main.py:308-352 | a submission keeps the invariant |
| GameInvariant.RecordResultInv | main.py:718 | recording the final score keeps the invariant |
| GameInvariant.ToMenuInv | main.py:509-512 | returning to the menu keeps the invariant |
| GameInvariant.SubmitCorrect | main.py:308-345 | a correct non-empty submission moves the car out of the obstacle's lane, adds 20 + (10 under 30 s, 5 under 60 s, else 0), raises streak, correct and answered counts by one, adds a life iff the new streak is a multiple of 3, leaves the new score on top of the history and sets the obstacle to -10 |
| GameInvariant.SubmitWrong | main.py:308-352 | a wrong non-empty submission resets the streak, counts the answer, shows the expected answer, and leaves car lane, score, lives and correct count unchanged |
| GameInvariant.CorrectAnswerThenTick | main.py:318-345 | after a correct answer the next tick costs no life, keeps the new streak and score, and spawns the next obstacle; the run ends only if the queue is empty |
| GameInvariant.WrongAnswerThenArrival | main.py:280-352 | after a wrong answer the car, score and lives are unchanged; the arrival costs a life iff the obstacle shares the car's lane; the run ends iff that was the last life or the queue is empty |
| GameInvariant.FirstAnswerScenario | main.py:238-352 | in a fresh run, answering the first question with its stored answer within 30 s gives score 30, one correct answer, streak 1 and still three lives |

## Left out

- Rendering is not modelled: `render_menu`, `render_game`, `render_racing_track`, `render_game_over`, `main` and all HTML/CSS. The menu's selectboxes only set the `difficulty` and `mode` fields. The programming-language selectbox is cosmetic.
- Wall-clock time is not modelled: `time.time`, the `time.sleep(0.1)` refresh and `st.rerun`. `Game.Submit` receives the elapsed whole seconds. For a non-negative real `e`, `floor(e) < 30` iff `e < 30`, so the bonus tiers are exact. The question start time is not stored. The countdown display is not modelled.
- Game.Tick: travelled distance is kept in exact integer tenths (`speed`, not the float `speed * 0.1`), so float rounding in the accumulated distance is not modelled.
- Randomness is not modelled: `random.choice`, `random.shuffle` and `random.randint` become the constrained parameters listed above. Uniformity is not modelled.
- Leaderboards.AddScore: the heap of negated scores is written but never read, so only `high_score` is kept.
- Lives.AddLife: the tail walk of the linked list is modelled as appending to a sequence of nodes.
- The repeated `add_score` call on every refresh of the game-over screen is a side effect of the UI loop. It is modelled as a single `Game.RecordResult`.
- The session starts with no lives object (`lives = None`). `Game.Init` holds an empty pool instead; nothing reads it before `start_game` replaces it with three lives.
- Question prompts are not modelled. A question is its topic and expected answer.
- In topic-wise mode `random.shuffle` reorders the catalog's own list in place. Every later read shuffles again, so the catalog is kept unchanged here.
- Game.Submit: the crash path when no question is current (`current_question['a']` on None) is a precondition. `GameInvariant.PlayingCanSubmit` shows it cannot arise during play.
- Game.Start: the difficulty is one of the three selectbox labels, so the `KeyError` raised by `next_question`'s time-limit lookup for any other label is unreachable. `Questions.DiffKey` still takes a free-form label and models its "easy" default.
- Text.Lower: only ASCII `A`-`Z` are folded. Python's `str.lower` also folds other Unicode letters and can change the length of a string (U+0130).

=== FILE: game.dfy ===
/**
 * The game controller: the session state and the step functions the UI calls
 * (`start_game`, `next_question`, `spawn_obstacle`, `update_game`,
 * `submit_answer`, and the game-over screen's `add_score`).
 *
 * Wall-clock time and the random source are parameters: `elapsed` is the
 * number of whole seconds since the question was shown, `lanePick` indexes
 * `Lanes`, `speed` is the drawn obstacle speed, `dodgePick` indexes the two
 * lanes left after removing the obstacle's, `pick` indexes the matching groups
 * and `shuffled` is the shuffled question list.
 */
module Game {
  import opened Wrappers
  import Lives
  import Queues
  import ScoreStacks
  import Leaderboards
  import opened Questions
  import QuestionBank

  datatype Phase = Menu | Playing | GameOver

  datatype Lane = Left | Center | Right

  datatype Difficulty = VeryEasy | Easy | Hard

  /** The feedback banner; Dodged is shown as success, Crashed and Missed as errors. */
  datatype Feedback = NoFeedback | Crashed | Dodged(points: int, bonusLife: bool) | Missed(expected: string)

  const Lanes: seq<Lane> := [Left, Center, Right]
  const SpawnDistance: int := 100
  const MinSpeed: int := 3
  const MaxSpeed: int := 7
  /** Where a correct answer puts the obstacle: already past the car. */
  const PassedDistance: int := -10
  const BasePoints: int := 20
  const StartingLives: int := 3
  const BonusLifeStreak: int := 3

  function Label(d: Difficulty): string {
    match d
    case VeryEasy => "Very Easy"
    case Easy => "Easy"
    case Hard => "Hard"
  }

  /** Seconds allowed per question; shown as a countdown, never enforced. */
  function TimeLimit(d: Difficulty): int {
    match d
    case VeryEasy => 300
    case Easy => 600
    case Hard => 1200
  }

  datatype GameState = GameState(
    phase: Phase,
    difficulty: Difficulty,
    mode: Mode,
    catalog: seq<Group>,
    lives: Lives.Pool,
    score: int,
    streak: int,
    questionsAnswered: int,
    correctAnswers: int,
    /** Distance travelled, in tenths of a metre. */
    distanceTenths: int,
    queue: Queues.Queue<Question>,
    current: Option<Question>,
    scores: ScoreStacks.ScoreStack,
    leaderboard: Leaderboards.Leaderboard,
    obstacleApproaching: bool,
    obstacleDistance: int,
    obstacleLane: Lane,
    carLane: Lane,
    obstacleSpeed: int,
    timeLimit: int,
    feedback: Feedback)

  /** `init_session_state`: the menu with default settings; no run has started. */
  function Init(): GameState {
    GameState(
      Menu, Easy, Mixed, QuestionBank.Catalog(),
      Lives.Empty, 0, 0, 0, 0, 0,
      Queues.Empty(), None,
      ScoreStacks.Empty, Leaderboards.Initial,
      false, SpawnDistance, Center, Center, 5,
      300, NoFeedback)
  }

  /** The time bonus: 10 points under 30 seconds, 5 under 60, none afterwards. */
  function TimeBonus(elapsed: nat): int {
    if elapsed < 30 then 10 else if elapsed < 60 then 5 else 0
  }

  function Points(elapsed: nat): int {
    BasePoints + TimeBonus(elapsed)
  }

  /** A faster answer never earns fewer points, and every correct answer earns 20 to 30. */
  lemma PointsBounds(e1: nat, e2: nat)
    requires e1 <= e2
    ensures Points(e1) >= Points(e2)
    ensures BasePoints <= Points(e2) <= BasePoints + 10
  {
  }

  /** The lanes left after `lanes.remove(l)`, in their original order. */
  function OtherLanes(l: Lane): (r: seq<Lane>)
    ensures l !in r
    ensures multiset(r) + multiset{l} == multiset(Lanes)
  {
    match l
    case Left => [Center, Right]
    case Center => [Left, Right]
    case Right => [Left, Center]
  }

  predicate ValidSpawn(lanePick: nat, speed: int) {
    lanePick < |Lanes| && MinSpeed <= speed <= MaxSpeed
  }

  /** `next_question`: dequeue the next question and restart its timer, or end the run when none is left. */
  function NextQuestion(s: GameState): (r: GameState)
    ensures s.queue.items != [] ==>
              && r.current == Some(s.queue.items[0])
              && [s.queue.items[0]] + r.queue.items == s.queue.items
              && r.phase == s.phase
              && r.timeLimit == TimeLimit(s.difficulty)
    ensures s.queue.items == [] ==>
              r.current == None && r.phase == GameOver && r.queue == s.queue && r.timeLimit == s.timeLimit
    ensures r == s.(queue := r.queue, current := r.current, timeLimit := r.timeLimit, phase := r.phase)
  {
    var (question, rest) := Queues.Dequeue(s.queue);
    match question
    case Some(_) => s.(queue := rest, current := question, timeLimit := TimeLimit(s.difficulty))
    case None => s.(queue := rest, current := None, phase := GameOver)
  }

  /** `spawn_obstacle`: a fresh obstacle at distance 100 in the drawn lane, at the drawn speed. */
  function SpawnObstacle(s: GameState, lanePick: nat, speed: int): (r: GameState)
    requires ValidSpawn(lanePick, speed)
    ensures r.obstacleApproaching && r.obstacleDistance == SpawnDistance
    ensures r.obstacleLane == Lanes[lanePick] && r.obstacleSpeed == speed
    ensures MinSpeed <= r.obstacleSpeed <= MaxSpeed
    ensures r == s.(obstacleApproaching := true, obstacleDistance := SpawnDistance,
                    obstacleLane := r.obstacleLane, obstacleSpeed := r.obstacleSpeed)
  {
    s.(obstacleApproaching := true, obstacleDistance := SpawnDistance,
       obstacleLane := Lanes[lanePick], obstacleSpeed := speed)
  }

  /** The arguments `start_game` needs from the random source are well formed. */
  predicate ValidStart(s: GameState, pick: nat, shuffled: seq<Question>, lanePick: nat, speed: int) {
    && ValidPick(s.catalog, DiffKey(Label(s.difficulty)), s.mode, pick)
    && IsShuffleOf(shuffled, Available(s.catalog, DiffKey(Label(s.difficulty)), s.mode, pick))
    && ValidSpawn(lanePick, speed)
  }

  /**
   * `start_game`: three fresh lives, zeroed counters, a new question queue,
   * the first question and the first obstacle. The car lane, the feedback,
   * the score history and the high score carry over from before.
   */
  function Start(s: GameState, pick: nat, shuffled: seq<Question>, lanePick: nat, speed: int): (r: GameState)
    requires ValidStart(s, pick, shuffled, lanePick, speed)
    ensures Lives.Count(r.lives) == StartingLives
    ensures r.score == 0 && r.streak == 0 && r.questionsAnswered == 0 && r.correctAnswers == 0
    ensures r.distanceTenths == 0
    ensures var n := |Available(s.catalog, DiffKey(Label(s.difficulty)), s.mode, pick)|;
            && (r.phase == Playing <==> n > 0)
            && (r.phase == GameOver <==> n == 0)
            && (n > 0 ==> Queues.Size(r.queue) == Min(MaxQueued, n) - 1)
    ensures var n := |Available(s.catalog, DiffKey(Label(s.difficulty)), s.mode, pick)|;
            && |shuffled| == n
            && (n > 0 ==>
                  && r.current == Some(shuffled[0])
                  && r.queue.items == shuffled[1..Min(MaxQueued, n)]
                  && r.timeLimit == TimeLimit(s.difficulty))
            && (n == 0 ==> r.current == None && r.queue.items == [] && r.timeLimit == s.timeLimit)
    ensures r.current.Some? ==> DrawnFrom(s.catalog, DiffKey(Label(s.difficulty)), r.current.value)
    ensures r.obstacleApproaching && r.obstacleDistance == SpawnDistance
    ensures r.obstacleLane == Lanes[lanePick] && r.obstacleSpeed == speed
    ensures r.carLane == s.carLane && r.feedback == s.feedback
    ensures r.scores == s.scores && r.leaderboard == s.leaderboard
    ensures r.catalog == s.catalog && r.difficulty == s.difficulty && r.mode == s.mode
  {
    var queue := PrepareQuestions(s.catalog, Label(s.difficulty), s.mode, pick, shuffled);
    var reset := s.(phase := Playing, lives := Lives.Make(StartingLives),
                    score := 0, streak := 0, questionsAnswered := 0, correctAnswers := 0,
                    distanceTenths := 0, queue := queue);
    var r := SpawnObstacle(NextQuestion(reset), lanePick, speed);
    assert queue.items != [] ==> queue.items[0] in queue.items;
    r
  }

  /**
   * `update_game`, one tick of the refresh loop. Outside play nothing happens.
   * Otherwise the obstacle closes in by its speed; once it arrives, a shared
   * lane costs a life and the streak, losing the last life ends the run on the
   * spot, and in every other case a new obstacle is spawned and the next
   * question loaded, which ends the run when the queue is exhausted.
   */
  function Tick(s: GameState, lanePick: nat, speed: int): (r: GameState)
    requires ValidSpawn(lanePick, speed)
    ensures s.phase != Playing || !s.obstacleApproaching ==> r == s
    ensures s.phase == Playing && s.obstacleApproaching ==>
              var moved := s.obstacleDistance - s.obstacleSpeed;
              var crash := moved <= 0 && s.obstacleLane == s.carLane;
              && r.distanceTenths == s.distanceTenths + s.obstacleSpeed
              && (moved > 0 ==> r == s.(obstacleDistance := moved, distanceTenths := r.distanceTenths))
              && (crash ==> r.streak == 0 && r.feedback == Crashed)
              && (crash ==> Lives.Count(r.lives) == if Lives.Count(s.lives) > 0 then Lives.Count(s.lives) - 1 else 0)
              && (!crash ==> r.lives == s.lives && r.streak == s.streak && r.feedback == s.feedback)
              && (crash && Lives.Count(r.lives) == 0 ==>
                    r == s.(phase := GameOver, obstacleDistance := moved, distanceTenths := r.distanceTenths,
                            lives := r.lives, streak := 0, feedback := Crashed))
              && (moved <= 0 && !(crash && Lives.Count(r.lives) == 0) ==>
                    && r.obstacleApproaching && r.obstacleDistance == SpawnDistance
                    && r.obstacleLane == Lanes[lanePick] && r.obstacleSpeed == speed
                    && (r.phase == GameOver <==> s.queue.items == [])
                    && (s.queue.items != [] ==> r.phase == Playing)
                    && (s.queue.items != [] ==>
                          && r.current == Some(s.queue.items[0])
                          && [s.queue.items[0]] + r.queue.items == s.queue.items
                          && r.timeLimit == TimeLimit(s.difficulty))
                    && (s.queue.items == [] ==> r.current == None && r.queue == s.queue && r.timeLimit == s.timeLimit))
    ensures r.score == s.score && r.correctAnswers == s.correctAnswers
    ensures r.catalog == s.catalog && r.difficulty == s.difficulty && r.mode == s.mode
    ensures r.questionsAnswered == s.questionsAnswered && r.carLane == s.carLane
    ensures r.scores == s.scores && r.leaderboard == s.leaderboard
  {
    if s.phase != Playing || !s.obstacleApproaching then s
    else
      var moved := s.(obstacleDistance := s.obstacleDistance - s.obstacleSpeed,
                      distanceTenths := s.distanceTenths + s.obstacleSpeed);
      if moved.obstacleDistance > 0 then moved
      else if moved.obstacleLane == moved.carLane then
        var (_, lives) := Lives.RemoveLife(moved.lives);
        var crashed := moved.(lives := lives, feedback := Crashed, streak := 0);
        if !Lives.HasLives(lives) then crashed.(phase := GameOver)
        else NextQuestion(SpawnObstacle(crashed, lanePick, speed))
      else
        NextQuestion(SpawnObstacle(moved, lanePick, speed))
  }

  /**
   * The correct branch of `submit_answer`: the car moves out of the
   * obstacle's lane, the answer scores 20 points plus the time bonus, the
   * streak grows (a bonus life on every third), the new score is recorded and
   * the obstacle is put behind the car.
   */
  function Dodge(s: GameState, elapsed: nat, dodgePick: nat): (r: GameState)
    requires dodgePick < 2
    ensures r.carLane != r.obstacleLane
    ensures r.score == s.score + Points(elapsed)
    ensures r.streak == s.streak + 1 && r.correctAnswers == s.correctAnswers + 1
    ensures r.streak % BonusLifeStreak == 0 ==> Lives.Count(r.lives) == Lives.Count(s.lives) + 1
    ensures r.streak % BonusLifeStreak != 0 ==> r.lives == s.lives
    ensures |r.scores.items| == |s.scores.items| + 1 && r.scores.items[..|s.scores.items|] == s.scores.items
    ensures ScoreStacks.Peek(r.scores) == r.score
    ensures r.obstacleDistance == PassedDistance && r.feedback.Dodged?
    ensures r == s.(carLane := r.carLane, score := r.score, correctAnswers := r.correctAnswers,
                    streak := r.streak, lives := r.lives, feedback := r.feedback, scores := r.scores,
                    obstacleDistance := r.obstacleDistance)
  {
    var points := Points(elapsed);
    var streak := s.streak + 1;
    var bonus := streak % BonusLifeStreak == 0;
    var score := s.score + points;
    var lane := OtherLanes(s.obstacleLane)[dodgePick];
    assert lane != s.obstacleLane by {
      assert lane in OtherLanes(s.obstacleLane);
    }
    s.(carLane := lane,
       score := score,
       correctAnswers := s.correctAnswers + 1,
       streak := streak,
       lives := if bonus then Lives.AddLife(s.lives) else s.lives,
       feedback := Dodged(points, bonus),
       scores := ScoreStacks.Push(s.scores, score),
       obstacleDistance := PassedDistance)
  }

  /**
   * `submit_answer`. An empty submission is ignored. Otherwise the answer is
   * counted; a correct one dodges (see `Dodge`); a wrong one only resets the
   * streak and shows the expected answer.
   */
  function Submit(s: GameState, answer: string, elapsed: nat, dodgePick: nat): (r: GameState)
    requires dodgePick < 2
    requires answer != [] ==> s.current.Some?
    ensures answer == [] ==> r == s
    ensures answer != [] ==> r.questionsAnswered == s.questionsAnswered + 1
    ensures answer != [] && CheckAnswer(s.current, answer) ==>
              r == Dodge(s.(questionsAnswered := s.questionsAnswered + 1), elapsed, dodgePick)
    ensures answer != [] && !CheckAnswer(s.current, answer) ==>
              r == s.(questionsAnswered := r.questionsAnswered, streak := 0,
                      feedback := Missed(s.current.value.answer))
    ensures r.score >= s.score
    ensures r.phase == s.phase && r.current == s.current && r.queue == s.queue
    ensures r.obstacleLane == s.obstacleLane && r.obstacleSpeed == s.obstacleSpeed
  {
    if answer == [] then s
    else
      var counted := s.(questionsAnswered := s.questionsAnswered + 1);
      if CheckAnswer(s.current, answer) then
        Dodge(counted, elapsed, dodgePick)
      else
        counted.(feedback := Missed(s.current.value.answer), streak := 0)
  }

  /** The game-over screen records the final score; the flag says whether it set a new high score. */
  function RecordResult(s: GameState): (r: (bool, GameState))
    ensures r.0 <==> s.score > s.leaderboard.highScore
    ensures r.1.leaderboard.highScore >= s.leaderboard.highScore
    ensures r.1.leaderboard.highScore >= s.score
    ensures r.1.leaderboard.highScore == s.leaderboard.highScore || r.1.leaderboard.highScore == s.score
    ensures r.1 == s.(leaderboard := r.1.leaderboard)
  {
    var (isNew, board) := Leaderboards.AddScore(s.leaderboard, s.score);
    (isNew, s.(leaderboard := board))
  }

  /** The PAUSE and MAIN MENU buttons: back to the menu, run state left as it is. */
  function ToMenu(s: GameState): (r: GameState)
    ensures r.phase == Menu && r == s.(phase := Menu)
  {
    s.(phase := Menu)
  }
}

=== FILE: game_invariant.dfy ===
/**
 * Properties of whole runs: an invariant every step keeps, and the
 * consequences of one submission followed by the next tick.
 */
module GameInvariant {
  import Lives
  import Queues
  import ScoreStacks
  import opened Questions
  import opened Game

  /**
   * What holds of every state the controller reaches:
   * counters are ordered (streak <= correct <= answered), the score lies
   * between 20 and 30 points per correct answer, the score history's top is
   * the current score once the run has a correct answer, the queue holds at
   * most fifteen questions, the obstacle speed is one `randint(3, 7)` can
   * draw, and a run in play has a life left and a question on screen.
   */
  ghost predicate Inv(s: GameState) {
    && 0 <= s.streak <= s.correctAnswers <= s.questionsAnswered
    && BasePoints * s.correctAnswers <= s.score <= (BasePoints + 10) * s.correctAnswers
    && (s.correctAnswers > 0 ==> ScoreStacks.Peek(s.scores) == s.score)
    && Queues.Size(s.queue) <= MaxQueued
    && MinSpeed <= s.obstacleSpeed <= MaxSpeed
    && s.distanceTenths >= 0
    && s.leaderboard.highScore >= 0
    && (s.phase == Playing ==> Lives.HasLives(s.lives) && s.current.Some?)
  }

  lemma InitInv()
    ensures Inv(Init())
  {
  }

  lemma StartInv(s: GameState, pick: nat, shuffled: seq<Question>, lanePick: nat, speed: int)
    requires Inv(s) && ValidStart(s, pick, shuffled, lanePick, speed)
    ensures Inv(Start(s, pick, shuffled, lanePick, speed))
  {
    var r := Start(s, pick, shuffled, lanePick, speed);
    if r.phase == Playing {
      assert r.current.Some?;
    }
  }

  lemma TickInv(s: GameState, lanePick: nat, speed: int)
    requires Inv(s) && ValidSpawn(lanePick, speed)
    ensures Inv(Tick(s, lanePick, speed))
  {
  }

  /** While a run is in play every submission is well defined: the crash path of a missing question is unreachable. */
  lemma PlayingCanSubmit(s: GameState, answer: string)
    requires Inv(s) && s.phase == Playing
    ensures answer != [] ==> s.current.Some?
  {
  }

  lemma SubmitInv(s: GameState, answer: string, elapsed: nat, dodgePick: nat)
    requires Inv(s) && dodgePick < 2
    requires answer != [] ==> s.current.Some?
    ensures Inv(Submit(s, answer, elapsed, dodgePick))
  {
    if answer != [] {
      var counted := s.(questionsAnswered := s.questionsAnswered + 1);
      if CheckAnswer(s.current, answer) {
        PointsBounds(elapsed, elapsed);
        var r := Dodge(counted, elapsed, dodgePick);
        assert r.phase == s.phase && r.current == s.current && r.queue == s.queue;
        assert Lives.Count(r.lives) >= Lives.Count(s.lives);
      }
    }
  }

  lemma RecordResultInv(s: GameState)
    requires Inv(s)
    ensures Inv(RecordResult(s).1)
  {
  }

  lemma ToMenuInv(s: GameState)
    requires Inv(s)
    ensures Inv(ToMenu(s))
  {
  }

  /**
   * A correct, non-empty submission: the car leaves the obstacle's lane, the
   * score rises by 20 plus the time bonus, streak and correct count rise by
   * one, a life is added exactly when the new streak is a multiple of three,
   * the new score is on top of the history and the obstacle is behind the car.
   */
  lemma SubmitCorrect(s: GameState, answer: string, elapsed: nat, dodgePick: nat)
    requires answer != [] && CheckAnswer(s.current, answer) && dodgePick < 2
    ensures var r := Submit(s, answer, elapsed, dodgePick);
            && r.carLane != r.obstacleLane && r.obstacleLane == s.obstacleLane
            && r.score == s.score + BasePoints + (if elapsed < 30 then 10 else if elapsed < 60 then 5 else 0)
            && r.streak == s.streak + 1
            && r.correctAnswers == s.correctAnswers + 1
            && r.questionsAnswered == s.questionsAnswered + 1
            && (Lives.Count(r.lives) == Lives.Count(s.lives) + 1 <==> r.streak % BonusLifeStreak == 0)
            && (Lives.Count(r.lives) == Lives.Count(s.lives) <==> r.streak % BonusLifeStreak != 0)
            && ScoreStacks.Peek(r.scores) == r.score
            && r.obstacleDistance == PassedDistance
  {
  }

  /**
   * A wrong, non-empty submission resets the streak and leaves the car lane,
   * the score and the lives as they were.
   */
  lemma SubmitWrong(s: GameState, answer: string, elapsed: nat, dodgePick: nat)
    requires answer != [] && s.current.Some? && !CheckAnswer(s.current, answer) && dodgePick < 2
    ensures var r := Submit(s, answer, elapsed, dodgePick);
            && r.streak == 0
            && r.carLane == s.carLane && r.score == s.score && r.lives == s.lives
            && r.correctAnswers == s.correctAnswers
            && r.questionsAnswered == s.questionsAnswered + 1
            && r.feedback == Missed(s.current.value.answer)
  {
  }

  /**
   * A correct answer makes the next arrival harmless: the obstacle is already
   * behind the car, in another lane, so the tick that follows costs no life and
   * the streak survives; a new obstacle comes unless the queue has run out.
   */
  lemma CorrectAnswerThenTick(s: GameState, answer: string, elapsed: nat, dodgePick: nat,
                              lanePick: nat, speed: int)
    requires Inv(s) && s.phase == Playing && s.obstacleApproaching
    requires answer != [] && CheckAnswer(s.current, answer)
    requires dodgePick < 2 && ValidSpawn(lanePick, speed)
    ensures var a := Submit(s, answer, elapsed, dodgePick);
            var t := Tick(a, lanePick, speed);
            && t.lives == a.lives
            && Lives.Count(t.lives) >= Lives.Count(s.lives)
            && t.streak == s.streak + 1
            && t.score == s.score + Points(elapsed)
            && (t.phase == GameOver <==> s.queue.items == [])
            && t.obstacleDistance == SpawnDistance
  {
  }

  /**
   * A wrong answer does not move the car: the next arrival costs a life
   * exactly when the obstacle was spawned in the car's lane.
   */
  lemma WrongAnswerThenArrival(s: GameState, answer: string, elapsed: nat, dodgePick: nat,
                               lanePick: nat, speed: int)
    requires Inv(s) && s.phase == Playing && s.obstacleApproaching
    requires answer != [] && !CheckAnswer(s.current, answer)
    requires dodgePick < 2 && ValidSpawn(lanePick, speed)
    requires s.obstacleDistance <= s.obstacleSpeed
    ensures var a := Submit(s, answer, elapsed, dodgePick);
            var t := Tick(a, lanePick, speed);
            && a.carLane == s.carLane && a.score == s.score && a.lives == s.lives && a.streak == 0
            && (Lives.Count(t.lives) == Lives.Count(s.lives) - 1 <==> s.obstacleLane == s.carLane)
            && (s.obstacleLane != s.carLane ==> t.lives == s.lives)
            && (t.phase == GameOver <==> (s.obstacleLane == s.carLane && Lives.Count(s.lives) == 1) || s.queue.items == [])
  {
  }

  /**
   * In a fresh run, of any difficulty and mode, answering the first question
   * with its stored answer inside 30 seconds scores 30 points, one correct
   * answer and a streak of one, and no bonus life yet.
   */
  lemma FirstAnswerScenario(s: GameState, pick: nat, shuffled: seq<Question>, lanePick: nat, speed: int,
                            elapsed: nat, dodgePick: nat)
    requires ValidStart(s, pick, shuffled, lanePick, speed) && dodgePick < 2
    requires |Available(s.catalog, DiffKey(Label(s.difficulty)), s.mode, pick)| > 0
    requires elapsed < 30
    ensures var g := Start(s, pick, shuffled, lanePick, speed);
            var a := Submit(g, g.current.value.answer, elapsed, dodgePick);
            && g.current.Some?
            && (g.current.value.answer != [] ==>
                  && a.score == 30 && a.correctAnswers == 1 && a.streak == 1
                  && a.questionsAnswered == 1 && Lives.Count(a.lives) == StartingLives)
  {
    var g := Start(s, pick, shuffled, lanePick, speed);
    assert g.phase == Playing;
  }
}

=== FILE: leaderboards.dfy ===
/**
 * `Leaderboard`: a running high score. The heap of negated scores the class
 * also fills is never read back, so only the scalar is modelled.
 */
module Leaderboards {

  datatype Leaderboard = Leaderboard(highScore: int)

  const Initial: Leaderboard := Leaderboard(0)

  /**
   * `add_score`: reports whether `score` beats the stored high score strictly;
   * the stored value becomes the larger of the two.
   */
  function AddScore(lb: Leaderboard, score: int): (r: (bool, Leaderboard))
    ensures r.0 <==> score > lb.highScore
    ensures r.1.highScore >= lb.highScore && r.1.highScore >= score
    ensures r.1.highScore == lb.highScore || r.1.highScore == score
  {
    if score > lb.highScore then (true, Leaderboard(score)) else (false, lb)
  }

  /** `add_score` applied to each score in turn. */
  function AddAll(lb: Leaderboard, scores: seq<int>): Leaderboard
    decreases |scores|
  {
    if scores == [] then lb else AddAll(AddScore(lb, scores[0]).1, scores[1..])
  }

  /** `m` is the maximum of `start` and every element of `scores`. */
  ghost predicate IsMaxOf(m: int, start: int, scores: seq<int>) {
    && m >= start
    && (forall i :: 0 <= i < |scores| ==> m >= scores[i])
    && (m == start || m in scores)
  }

  /** After any sequence of `add_score` calls the high score is the maximum of everything seen. */
  lemma {:induction false} AddAllIsMax(lb: Leaderboard, scores: seq<int>)
    ensures IsMaxOf(AddAll(lb, scores).highScore, lb.highScore, scores)
    decreases |scores|
  {
    if scores != [] {
      var next := AddScore(lb, scores[0]).1;
      AddAllIsMax(next, scores[1..]);
      var m := AddAll(lb, scores).highScore;
      assert m == AddAll(next, scores[1..]).highScore;
      forall i | 0 <= i < |scores|
        ensures m >= scores[i]
      {
        if i > 0 { assert scores[i] == scores[1..][i - 1]; }
      }
      assert m in scores[1..] ==> m in scores;
    }
  }

  /** The high score never decreases, whatever is added. */
  lemma {:induction false} AddAllMonotone(lb: Leaderboard, scores: seq<int>)
    ensures AddAll(lb, scores).highScore >= lb.highScore
  {
    AddAllIsMax(lb, scores);
  }
}

=== FILE: lives.dfy ===
/**
 * The pool of lives: a singly linked list of empty nodes plus a separately
 * maintained `size` counter. The node chain is kept as a sequence (front = head);
 * `Valid` is the invariant tying the counter to the chain.
 */
module Lives {

  datatype LifeNode = LifeNode

  datatype LivesList = LivesList(nodes: seq<LifeNode>, size: int)

  /** The counter agrees with the length of the chain. */
  predicate Valid(l: LivesList) {
    l.size == |l.nodes|
  }

  /** A pool the class itself maintains: counter and chain always agree. */
  type Pool = l: LivesList | Valid(l) witness LivesList([], 0)

  const Empty: Pool := LivesList([], 0)

  function Count(l: LivesList): int {
    l.size
  }

  function HasLives(l: LivesList): bool {
    l.size > 0
  }

  /** `add_life`: a node appended at the tail; the count rises by one. */
  function AddLife(l: LivesList): (r: LivesList)
    ensures Valid(l) ==> Valid(r)
    ensures Count(r) == Count(l) + 1
    ensures Valid(l) ==> HasLives(r)
  {
    LivesList(l.nodes + [LifeNode], l.size + 1)
  }

  /**
   * `remove_life`: when the chain has a head it is unlinked and the call
   * reports true; on an empty chain nothing changes and the call reports false.
   */
  function RemoveLife(l: LivesList): (r: (bool, LivesList))
    requires Valid(l)
    ensures Valid(r.1)
    ensures r.0 <==> Count(l) > 0
    ensures r.0 ==> Count(r.1) == Count(l) - 1
    ensures !r.0 ==> r.1 == l && Count(r.1) == 0
    ensures Count(r.1) >= 0
  {
    if l.nodes != [] then (true, LivesList(l.nodes[1..], l.size - 1)) else (false, l)
  }

  /** `LivesLinkedList(initial)`: `add_life` called `initial` times on an empty list. */
  function Make(initial: int): (r: Pool)
    ensures Valid(r)
    ensures Count(r) == if initial > 0 then initial else 0
    decreases if initial > 0 then initial else 0
  {
    if initial <= 0 then Empty else AddLife(Make(initial - 1))
  }

  /** `has_lives` tests the counter; under `Valid` that is the same as the chain having a head. */
  lemma HasLivesIffHead(l: LivesList)
    requires Valid(l)
    ensures HasLives(l) <==> l.nodes != []
  {
  }
}

=== FILE: question_bank.dfy ===
/**
 * The question catalog `_load_questions` returns, in dictionary order, and
 * what the substring filter makes of it for each difficulty.
 */
module QuestionBank {
  import opened Text
  import opened Questions

  function Catalog(): seq<Group> {
    [
      Group("arrays_very_easy", [
        Question("Arrays", "return max(arr)"),
        Question("Arrays", "return sum(arr)"),
        Question("Arrays", "return len(arr)")]),
      Group("arrays_easy", [
        Question("Arrays", "return arr[::-1]"),
        Question("Arrays", "return sorted(arr)[-2]"),
        Question("Arrays", "return sum(1 for x in arr if x % 2 == 0)")]),
      Group("strings_very_easy", [
        Question("Strings", "return s == s[::-1]"),
        Question("Strings", "return len(s)")]),
      Group("strings_easy", [
        Question("Strings", "return s[::-1]"),
        Question("Strings", "return sum(1 for c in s.lower() if c in 'aeiou')")]),
      Group("stacks_very_easy", [
        Question("Stack", "return stack + [item]"),
        Question("Stack", "return stack[:-1]")]),
      Group("stacks_easy", [
        Question("Stack", "return s.count('(') == s.count(')')"),
        Question("Queue", "return queue[1:]")]),
      Group("searching_very_easy", [
        Question("Search", "return arr.index(target) if target in arr else -1"),
        Question("Search", "return x in arr")]),
      Group("searching_easy", [
        Question("Search", "import bisect; return bisect.bisect_left(arr, target)")]),
      Group("recursion_easy", [
        Question("Recursion", "return 1 if n <= 1 else n * factorial(n-1)"),
        Question("Recursion", "return n if n <= 1 else fib(n-1) + fib(n-2)")]),
      Group("sorting_easy", [
        Question("Sorting", "return sorted(arr)"),
        Question("Sorting", "return sorted(arr, reverse=True)")]),
      Group("trees_hard", [
        Question("Trees", "queue"),
        Question("Trees", "stack")])
    ]
  }

  /** The first group, "arrays_very_easy", passes the filter of an Easy run. */
  lemma EasyRunAdmitsArraysVeryEasy()
    ensures Catalog()[0] in Matching(Catalog(), DiffKey("Easy"))
  {
    assert Catalog()[0].key == "arrays_very_easy";
    assert OccursAt("easy", "arrays_very_easy", 12) by {
      assert "arrays_very_easy"[12..][..4] == "easy";
    }
  }
}

=== FILE: questions.dfy ===
/**
 * `QuestionManager`: the catalog of question groups, the per-run selection
 * (`prepare_questions`) and the answer check (`check_answer`).
 */
module Questions {
  import opened Wrappers
  import opened Text
  import Queues

  /** A catalog entry. The prompt text is only displayed, so a question is its topic and expected answer. */
  datatype Question = Question(topic: string, answer: string)

  /** One entry of the catalog dictionary: a key such as "arrays_very_easy" and its questions. */
  datatype Group = Group(key: string, questions: seq<Question>)

  /** "Mixed" pools every matching group; any other mode is topic-wise and draws from one group. */
  datatype Mode = Mixed | TopicWise

  /** At most this many questions are queued for a run. */
  const MaxQueued: nat := 15

  function Min(a: int, b: int): int {
    if a <= b then a else b
  }

  /** The catalog key fragment for a difficulty label; an unknown label falls back to "easy". */
  function DiffKey(difficulty: string): (key: string)
    ensures key == "very_easy" || key == "easy" || key == "hard"
    ensures difficulty == "Very Easy" ==> key == "very_easy"
    ensures difficulty == "Hard" ==> key == "hard"
    ensures difficulty != "Very Easy" && difficulty != "Hard" ==> key == "easy"
  {
    if difficulty == "Very Easy" then "very_easy"
    else if difficulty == "Easy" then "easy"
    else if difficulty == "Hard" then "hard"
    else "easy"
  }

  /** The groups whose key contains `key` as a substring, in catalog order. */
  function Matching(catalog: seq<Group>, key: string): (r: seq<Group>)
    ensures |r| <= |catalog|
    ensures forall g :: g in r <==> g in catalog && IsSubstring(key, g.key)
  {
    if catalog == [] then []
    else
      var rest := Matching(catalog[1..], key);
      assert forall g :: g in catalog <==> g == catalog[0] || g in catalog[1..];
      if IsSubstring(key, catalog[0].key) then [catalog[0]] + rest else rest
  }

  /** The questions of `groups` concatenated in order. */
  function Pooled(groups: seq<Group>): (r: seq<Question>)
    ensures forall q :: q in r ==> exists g :: g in groups && q in g.questions
    ensures forall g, q :: g in groups && q in g.questions ==> q in r
  {
    if groups == [] then []
    else
      var rest := Pooled(groups[1..]);
      assert forall g :: g in groups[1..] ==> g in groups;
      assert forall g :: g in groups ==> g == groups[0] || g in groups[1..];
      groups[0].questions + rest
  }

  /** Filtering a concatenation filters each part: every group is kept once, in catalog order. */
  lemma {:induction false} MatchingAppend(a: seq<Group>, b: seq<Group>, key: string)
    ensures Matching(a + b, key) == Matching(a, key) + Matching(b, key)
  {
    if a == [] {
      assert a + b == b;
    } else {
      assert (a + b)[0] == a[0];
      assert (a + b)[1..] == a[1..] + b;
      MatchingAppend(a[1..], b, key);
    }
  }

  /** A single group is kept exactly when its key contains `key`. */
  lemma MatchingOne(g: Group, key: string)
    ensures Matching([g], key) == if IsSubstring(key, g.key) then [g] else []
  {
    assert [g][1..] == [];
    assert Matching([], key) == [];
  }

  /** Pooling a concatenation pools each part, so each question appears as often as its groups hold it. */
  lemma {:induction false} PooledAppend(a: seq<Group>, b: seq<Group>)
    ensures Pooled(a + b) == Pooled(a) + Pooled(b)
  {
    if a == [] {
      assert a + b == b;
    } else {
      assert (a + b)[0] == a[0];
      assert (a + b)[1..] == a[1..] + b;
      PooledAppend(a[1..], b);
    }
  }

  /** A single group pools to its own questions. */
  lemma PooledOne(g: Group)
    ensures Pooled([g]) == g.questions
  {
    assert [g][1..] == [];
    assert Pooled([]) == [];
    assert g.questions + [] == g.questions;
  }

  /** A random group choice is an index into the matching groups, needed only in topic-wise mode. */
  predicate ValidPick(catalog: seq<Group>, key: string, mode: Mode, pick: nat) {
    mode == TopicWise ==> |Matching(catalog, key)| == 0 || pick < |Matching(catalog, key)|
  }

  /** The list `prepare_questions` shuffles: every matching group pooled, or the picked one alone. */
  function Available(catalog: seq<Group>, key: string, mode: Mode, pick: nat): seq<Question>
    requires ValidPick(catalog, key, mode, pick)
  {
    var matching := Matching(catalog, key);
    match mode
    case Mixed => Pooled(matching)
    case TopicWise => if |matching| == 0 then [] else matching[pick].questions
  }

  /** `q` sits in some catalog group whose key contains `key`. */
  ghost predicate DrawnFrom(catalog: seq<Group>, key: string, q: Question) {
    exists g :: g in catalog && IsSubstring(key, g.key) && q in g.questions
  }

  lemma AvailableDrawnFrom(catalog: seq<Group>, key: string, mode: Mode, pick: nat)
    requires ValidPick(catalog, key, mode, pick)
    ensures forall q :: q in Available(catalog, key, mode, pick) ==> DrawnFrom(catalog, key, q)
  {
    var matching := Matching(catalog, key);
    if mode == TopicWise && |matching| > 0 {
      assert matching[pick] in matching;
    }
  }

  /** A permutation of `xs`, standing in for `random.shuffle`. */
  predicate IsShuffleOf(shuffled: seq<Question>, xs: seq<Question>) {
    multiset(shuffled) == multiset(xs)
  }

  /**
   * `prepare_questions`: the available questions in the caller's shuffled
   * order, cut to the first fifteen, enqueued into a fresh queue.
   */
  function PrepareQuestions(catalog: seq<Group>, difficulty: string, mode: Mode, pick: nat,
                            shuffled: seq<Question>): (q: Queues.Queue<Question>)
    requires ValidPick(catalog, DiffKey(difficulty), mode, pick)
    requires IsShuffleOf(shuffled, Available(catalog, DiffKey(difficulty), mode, pick))
    ensures Queues.Size(q) == Min(MaxQueued, |Available(catalog, DiffKey(difficulty), mode, pick)|)
    ensures Queues.Size(q) <= |shuffled| && q.items == shuffled[..Queues.Size(q)]
    ensures multiset(q.items) <= multiset(Available(catalog, DiffKey(difficulty), mode, pick))
    ensures forall x :: x in q.items ==> DrawnFrom(catalog, DiffKey(difficulty), x)
    ensures mode == TopicWise && |Matching(catalog, DiffKey(difficulty))| > 0 ==>
              forall x :: x in q.items ==> x in Matching(catalog, DiffKey(difficulty))[pick].questions
    ensures mode == TopicWise && |Matching(catalog, DiffKey(difficulty))| == 0 ==> q.items == []
  {
    var key := DiffKey(difficulty);
    var available := Available(catalog, key, mode, pick);
    assert |shuffled| == |available| by {
      assert |multiset(shuffled)| == |multiset(available)|;
    }
    var n := Min(MaxQueued, |shuffled|);
    var q := Queues.EnqueueAll(Queues.Empty(), shuffled[..n]);
    assert q.items == shuffled[..n];
    assert shuffled == shuffled[..n] + shuffled[n..];
    assert multiset(q.items) <= multiset(available) by {
      assert multiset(shuffled) == multiset(shuffled[..n]) + multiset(shuffled[n..]);
    }
    assert forall x :: x in q.items ==> x in available by {
      forall x | x in q.items ensures x in available {
        assert x in multiset(q.items);
      }
    }
    AvailableDrawnFrom(catalog, key, mode, pick);
    q
  }

  /**
   * `check_answer`: false without a current question; otherwise the stored
   * answer and the submission must agree once both are stripped, lowercased
   * and cleared of spaces.
   */
  function CheckAnswer(current: Option<Question>, user: string): (ok: bool)
    ensures current.None? ==> !ok
    ensures current.Some? ==> (ok <==> Normalize(user) == Normalize(current.value.answer))
    ensures current.Some? && user == current.value.answer ==> ok
  {
    match current
    case None => false
    case Some(q) => Normalize(q.answer) == Normalize(user)
  }

  /**
   * Answers that differ from an accepted one only in letter case, surrounding
   * whitespace or spaces are accepted too.
   */
  lemma CheckAnswerTolerance(q: Question, user: string, lead: string, trail: string)
    requires AllWhitespace(lead) && AllWhitespace(trail)
    ensures CheckAnswer(Some(q), Lower(user)) == CheckAnswer(Some(q), user)
    ensures CheckAnswer(Some(q), lead + user + trail) == CheckAnswer(Some(q), user)
    ensures CheckAnswer(Some(q), RemoveSpaces(user)) == CheckAnswer(Some(q), user)
  {
    NormalizeIgnoresCase(user);
    NormalizeIgnoresPadding(lead, user, trail);
    NormalizeIgnoresSpaces(user);
  }

  /**
   * Only U+0020 is removed: whitespace such as a tab or a newline inside a
   * submission survives normalisation, so the submission is rejected when the
   * stored answer has no such character ("return\tmax(arr)" against
   * "return max(arr)").
   */
  lemma InnerWhitespaceRejected(q: Question, user: string, c: char)
    requires IsWhitespace(c) && c != ' '
    requires Stripped(user) && c in user && c !in q.answer
    ensures !CheckAnswer(Some(q), user)
  {
    NormalizeKeepsInnerWhitespace(user, c);
    NormalizeAddsNoWhitespace(q.answer, c);
  }

  /** The catalog's first answer, typed with a tab for its space, is rejected. */
  lemma TabInsideAnswerRejected()
    ensures !CheckAnswer(Some(Question("Arrays", "return max(arr)")), "return\tmax(arr)")
  {
    var user := "return\tmax(arr)";
    assert user[6] == '\t';
    assert '\t' !in "return max(arr)";
    InnerWhitespaceRejected(Question("Arrays", "return max(arr)"), user, '\t');
  }

  /** A submission equal to the normalised stored answer is accepted. */
  lemma NormalizedAnswerAccepted(q: Question)
    ensures CheckAnswer(Some(q), Normalize(q.answer))
  {
    NormalizeIdempotent(q.answer);
  }

  /**
   * The difficulty keys are matched as substrings and "easy" occurs inside
   * "very_easy", so every group the Very Easy filter selects is selected by the
   * Easy filter as well, and any question of a Very Easy run can also be drawn
   * in a mixed Easy run.
   */
  lemma EasyAdmitsVeryEasy(catalog: seq<Group>)
    ensures forall g :: g in Matching(catalog, DiffKey("Very Easy")) ==> g in Matching(catalog, DiffKey("Easy"))
    ensures forall q :: q in Available(catalog, DiffKey("Very Easy"), Mixed, 0) ==>
              q in Available(catalog, DiffKey("Easy"), Mixed, 0)
  {
    assert OccursAt("easy", "very_easy", 5) by {
      assert "very_easy"[5..][..4] == "easy";
    }
    forall g | g in Matching(catalog, "very_easy")
      ensures g in Matching(catalog, "easy")
    {
      SubstringTransitive("easy", "very_easy", g.key);
    }
  }
}

=== FILE: queues.dfy ===
/** `QuestionQueue`: a FIFO queue over a double-ended list. */
module Queues {
  import opened Wrappers

  datatype Queue<T> = Queue(items: seq<T>)

  function Empty<T>(): Queue<T> {
    Queue([])
  }

  function Size<T>(q: Queue<T>): nat {
    |q.items|
  }

  /** `enqueue`: the new item goes to the back; everything already queued keeps its place. */
  function Enqueue<T>(q: Queue<T>, x: T): (r: Queue<T>)
    ensures Size(r) == Size(q) + 1
    ensures r.items[..Size(q)] == q.items && r.items[Size(q)] == x
  {
    Queue(q.items + [x])
  }

  /** `dequeue`: the front item and the rest of the queue, or None and the same queue when empty. */
  function Dequeue<T>(q: Queue<T>): (r: (Option<T>, Queue<T>))
    ensures q.items == [] ==> r.0 == None && r.1 == q
    ensures q.items != [] ==> r.0 == Some(q.items[0]) && [q.items[0]] + r.1.items == q.items
    ensures Size(r.1) == if q.items == [] then 0 else Size(q) - 1
  {
    if q.items == [] then (None, q) else (Some(q.items[0]), Queue(q.items[1..]))
  }

  /** Enqueues every element of `xs`, first to last. */
  function EnqueueAll<T>(q: Queue<T>, xs: seq<T>): (r: Queue<T>)
    ensures r.items == q.items + xs
    decreases |xs|
  {
    if xs == [] then q
    else
      var r := EnqueueAll(Enqueue(q, xs[0]), xs[1..]);
      assert [xs[0]] + xs[1..] == xs;
      r
  }

  /** Dequeues until the queue reports None, collecting what came out. */
  function Drain<T>(q: Queue<T>): (out: seq<T>)
    ensures out == q.items
    decreases Size(q)
  {
    match Dequeue(q)
    case (None, _) => []
    case (Some(x), rest) => [x] + Drain(rest)
  }

  /** Items come out of the queue in exactly the order they went in. */
  lemma {:induction false} FifoOrder<T>(xs: seq<T>)
    ensures Drain(EnqueueAll(Empty(), xs)) == xs
  {
    assert EnqueueAll(Empty(), xs).items == [] + xs;
  }

  /** One enqueue after a dequeue: the front is unaffected by what is added at the back. */
  lemma EnqueueThenDequeue<T>(q: Queue<T>, x: T)
    ensures q.items == [] ==> Dequeue(Enqueue(q, x)) == (Some(x), Empty())
    ensures q.items != [] ==> Dequeue(Enqueue(q, x)) == (Some(q.items[0]), Enqueue(Dequeue(q).1, x))
  {
    if q.items != [] {
      assert (q.items + [x])[1..] == q.items[1..] + [x];
    }
  }
}

=== FILE: score_stacks.dfy ===
/** `ScoreStack`: the history of scores after each correct answer; only its top is ever read. */
module ScoreStacks {

  datatype ScoreStack = ScoreStack(items: seq<int>)

  const Empty: ScoreStack := ScoreStack([])

  /** `peek`: the most recently pushed score, or 0 when nothing was pushed. */
  function Peek(s: ScoreStack): (top: int)
    ensures s.items == [] ==> top == 0
    ensures s.items != [] ==> top in s.items
  {
    if s.items == [] then 0 else s.items[|s.items| - 1]
  }

  /** `push`: the history grows by one, keeps every earlier entry, and the new score is on top. */
  function Push(s: ScoreStack, score: int): (r: ScoreStack)
    ensures |r.items| == |s.items| + 1
    ensures r.items[..|s.items|] == s.items
    ensures Peek(r) == score
  {
    ScoreStack(s.items + [score])
  }
}

=== FILE: text.dfy ===
/**
 * The string operations the answer checker and the question filter rely on:
 * Python's `str.strip()`, `str.lower()`, `str.replace(" ", "")` and the
 * substring test `needle in haystack`.
 */
module Text {

  /** The characters `str.isspace()` accepts, i.e. the ones `str.strip()` removes. */
  predicate IsWhitespace(c: char) {
    || c == ' '
    || '\t' <= c <= '\r'
    || '\U{1c}' <= c <= '\U{1f}'
    || c == '\U{85}' || c == '\U{a0}' || c == '\U{1680}'
    || '\U{2000}' <= c <= '\U{200a}'
    || c == '\U{2028}' || c == '\U{2029}' || c == '\U{202f}' || c == '\U{205f}' || c == '\U{3000}'
  }

  predicate AllWhitespace(s: string) {
    forall i {:trigger IsWhitespace(s[i])} :: 0 <= i < |s| ==> IsWhitespace(s[i])
  }

  /** Neither end of `s` is whitespace: what `strip()` leaves behind. */
  predicate Stripped(s: string) {
    s == [] || (!IsWhitespace(s[0]) && !IsWhitespace(s[|s| - 1]))
  }

  /** The index of the first non-whitespace character at or after `from`, or `|s|`. */
  function SkipLeading(s: string, from: nat): (n: nat)
    requires from <= |s|
    ensures from <= n <= |s|
    ensures forall k :: from <= k < n ==> IsWhitespace(s[k])
    ensures n == |s| || !IsWhitespace(s[n])
    decreases |s| - from
  {
    if from < |s| && IsWhitespace(s[from]) then SkipLeading(s, from + 1) else from
  }

  /** One past the last non-whitespace character in `s[lo..hi]`, or `lo`. */
  function SkipTrailing(s: string, lo: nat, hi: nat): (n: nat)
    requires lo <= hi <= |s|
    ensures lo <= n <= hi
    ensures forall k :: n <= k < hi ==> IsWhitespace(s[k])
    ensures n == lo || !IsWhitespace(s[n - 1])
    decreases hi
  {
    if lo < hi && IsWhitespace(s[hi - 1]) then SkipTrailing(s, lo, hi - 1) else hi
  }

  /** `strip()`: the slice left once whitespace is removed from both ends. */
  function Strip(s: string): (r: string)
    ensures Stripped(r)
    ensures |r| <= |s|
  {
    var start := SkipLeading(s, 0);
    s[start..SkipTrailing(s, start, |s|)]
  }

  /**
   * `strip()` is determined by its two cut points: any split of `s` into
   * whitespace, a stripped middle and whitespace cuts exactly where `strip()` does.
   */
  lemma StripCut(s: string, a: nat, b: nat)
    requires a <= b <= |s|
    requires forall k :: 0 <= k < a ==> IsWhitespace(s[k])
    requires forall k :: b <= k < |s| ==> IsWhitespace(s[k])
    requires Stripped(s[a..b])
    ensures Strip(s) == s[a..b]
  {
    var start := SkipLeading(s, 0);
    if a == b {
      assert forall k :: 0 <= k < |s| ==> IsWhitespace(s[k]) by {
        forall k | 0 <= k < |s| ensures IsWhitespace(s[k]) {
          if k >= a { assert b <= k; }
        }
      }
      assert start == |s|;
    } else {
      assert !IsWhitespace(s[a]) by { assert s[a..b][0] == s[a]; }
      assert !IsWhitespace(s[b - 1]) by { assert s[a..b][b - a - 1] == s[b - 1]; }
      assert start == a;
      var stop := SkipTrailing(s, start, |s|);
      assert stop == b;
    }
  }

  /** `s` splits into leading whitespace, `Strip(s)` and trailing whitespace. */
  lemma StripSplit(s: string) returns (lead: string, trail: string)
    ensures s == lead + Strip(s) + trail
    ensures AllWhitespace(lead) && AllWhitespace(trail)
  {
    var start := SkipLeading(s, 0);
    var stop := SkipTrailing(s, start, |s|);
    lead, trail := s[..start], s[stop..];
    assert s == lead + s[start..stop] + trail;
  }

  /** The split is unique: whitespace around a stripped core is exactly what `strip()` removes. */
  lemma StripOfPadded(lead: string, core: string, trail: string)
    requires AllWhitespace(lead) && AllWhitespace(trail) && Stripped(core)
    ensures Strip(lead + core + trail) == core
  {
    var s := lead + core + trail;
    var a, b := |lead|, |lead| + |core|;
    assert s[a..b] == core;
    assert forall k :: 0 <= k < a ==> s[k] == lead[k];
    assert forall k :: b <= k < |s| ==> s[k] == trail[k - b];
    StripCut(s, a, b);
  }

  /** `strip()` returns the empty string exactly when `s` is all whitespace. */
  lemma StripEmptyIff(s: string)
    ensures Strip(s) == [] <==> AllWhitespace(s)
  {
    var start := SkipLeading(s, 0);
    if !AllWhitespace(s) {
      assert start < |s|;
      assert SkipTrailing(s, start, |s|) > start;
    }
  }

  /** `str.lower()` on one character; only ASCII letters are folded. */
  function LowerChar(c: char): (r: char)
    ensures IsWhitespace(r) <==> IsWhitespace(c)
    ensures r == ' ' <==> c == ' '
    ensures !('A' <= r <= 'Z')
  {
    if 'A' <= c <= 'Z' then (c as int + ('a' as int - 'A' as int)) as char else c
  }

  function Lower(s: string): (r: string)
    ensures |r| == |s|
    ensures forall i :: 0 <= i < |s| ==> r[i] == LowerChar(s[i])
  {
    if s == [] then [] else [LowerChar(s[0])] + Lower(s[1..])
  }

  predicate NoUpper(s: string) {
    forall i :: 0 <= i < |s| ==> !('A' <= s[i] <= 'Z')
  }

  /** `s.replace(" ", "")`: every U+0020 deleted; tabs, newlines and other whitespace stay. */
  function RemoveSpaces(s: string): (r: string)
    ensures ' ' !in r
    ensures |r| <= |s|
    ensures multiset(r) == multiset(s)[' ' := 0]
  {
    if s == [] then []
    else if s[0] == ' ' then
      assert multiset(s) == multiset{s[0]} + multiset(s[1..]) by { assert s == [s[0]] + s[1..]; }
      RemoveSpaces(s[1..])
    else
      assert multiset(s) == multiset{s[0]} + multiset(s[1..]) by { assert s == [s[0]] + s[1..]; }
      [s[0]] + RemoveSpaces(s[1..])
  }

  /** The normalisation `check_answer` applies to both sides: strip, lowercase, drop spaces. */
  function Normalize(s: string): (r: string)
    ensures ' ' !in r
    ensures NoUpper(r)
    ensures Stripped(r)
  {
    var lowered := Lower(Strip(s));
    LowerKeepsStripped(Strip(s));
    RemoveSpacesKeepsStripped(lowered);
    RemoveSpacesKeepsNoUpper(lowered);
    RemoveSpaces(lowered)
  }

  lemma LowerKeepsStripped(s: string)
    requires Stripped(s)
    ensures Stripped(Lower(s))
  {
  }

  lemma {:induction false} RemoveSpacesAppend(a: string, b: string)
    ensures RemoveSpaces(a + b) == RemoveSpaces(a) + RemoveSpaces(b)
  {
    if a == [] {
      assert a + b == b;
    } else {
      assert (a + b)[1..] == a[1..] + b;
      RemoveSpacesAppend(a[1..], b);
    }
  }

  lemma {:induction false} RemoveSpacesKeepsStripped(s: string)
    requires Stripped(s)
    ensures Stripped(RemoveSpaces(s))
  {
    if s != [] {
      var n := |s|;
      assert s == s[..n - 1] + [s[n - 1]];
      RemoveSpacesAppend(s[..n - 1], [s[n - 1]]);
      assert RemoveSpaces([s[n - 1]]) == [s[n - 1]];
    }
  }

  lemma {:induction false} RemoveSpacesKeepsNoUpper(s: string)
    requires NoUpper(s)
    ensures NoUpper(RemoveSpaces(s))
  {
    if s != [] {
      RemoveSpacesKeepsNoUpper(s[1..]);
    }
  }

  /** Whitespace stays whitespace after space removal. */
  lemma {:induction false} RemoveSpacesKeepsAllWhitespace(s: string)
    requires AllWhitespace(s)
    ensures AllWhitespace(RemoveSpaces(s))
  {
    if s != [] {
      RemoveSpacesKeepsAllWhitespace(s[1..]);
    }
  }

  lemma {:induction false} RemoveSpacesIdempotent(s: string)
    requires ' ' !in s
    ensures RemoveSpaces(s) == s
  {
    if s != [] {
      RemoveSpacesIdempotent(s[1..]);
    }
  }

  lemma {:induction false} LowerRemoveSpacesCommute(s: string)
    ensures Lower(RemoveSpaces(s)) == RemoveSpaces(Lower(s))
  {
    if s != [] {
      LowerRemoveSpacesCommute(s[1..]);
      assert Lower(s)[1..] == Lower(s[1..]);
    }
  }

  lemma LowerOfNoUpper(s: string)
    requires NoUpper(s)
    ensures Lower(s) == s
  {
  }

  lemma LowerIdempotent(s: string)
    ensures Lower(Lower(s)) == Lower(s)
  {
  }

  lemma LowerAppend(a: string, b: string)
    ensures Lower(a + b) == Lower(a) + Lower(b)
  {
  }

  /** Lowercasing before or after `strip()` gives the same string. */
  lemma StripLowerCommute(s: string)
    ensures Strip(Lower(s)) == Lower(Strip(s))
  {
    var lead, trail := StripSplit(s);
    var core := Strip(s);
    LowerAppend(lead + core, trail);
    LowerAppend(lead, core);
    LowerKeepsStripped(core);
    StripOfPadded(Lower(lead), Lower(core), Lower(trail));
  }

  /** Space removal before or after `strip()` leaves the same core. */
  lemma StripRemoveSpaces(s: string)
    ensures Strip(RemoveSpaces(s)) == RemoveSpaces(Strip(s))
  {
    var lead, trail := StripSplit(s);
    var core := Strip(s);
    RemoveSpacesAppend(lead + core, trail);
    RemoveSpacesAppend(lead, core);
    RemoveSpacesKeepsAllWhitespace(lead);
    RemoveSpacesKeepsAllWhitespace(trail);
    RemoveSpacesKeepsStripped(core);
    StripOfPadded(RemoveSpaces(lead), RemoveSpaces(core), RemoveSpaces(trail));
  }

  /** Normalising twice is normalising once. */
  lemma NormalizeIdempotent(s: string)
    ensures Normalize(Normalize(s)) == Normalize(s)
  {
    var n := Normalize(s);
    assert n[0..|n|] == n;
    StripCut(n, 0, |n|);
    LowerOfNoUpper(n);
    RemoveSpacesIdempotent(n);
  }

  /** Case does not matter: lowering the input first changes nothing. */
  lemma NormalizeIgnoresCase(s: string)
    ensures Normalize(Lower(s)) == Normalize(s)
  {
    StripLowerCommute(s);
    LowerIdempotent(Strip(s));
  }

  /** Surrounding whitespace does not matter. */
  lemma NormalizeIgnoresPadding(lead: string, s: string, trail: string)
    requires AllWhitespace(lead) && AllWhitespace(trail)
    ensures Normalize(lead + s + trail) == Normalize(s)
  {
    StripIgnoresPadding(lead, s, trail);
  }

  /** `strip()` removes any extra whitespace put around its input. */
  lemma StripIgnoresPadding(lead: string, s: string, trail: string)
    requires AllWhitespace(lead) && AllWhitespace(trail)
    ensures Strip(lead + s + trail) == Strip(s)
  {
    var l, t := StripSplit(s);
    Regroup(lead, l, Strip(s), t, trail);
    AllWhitespaceAppend(lead, l);
    AllWhitespaceAppend(t, trail);
    StripOfPadded(lead + l, Strip(s), t + trail);
  }

  lemma Regroup(a: string, b: string, c: string, d: string, e: string)
    ensures a + (b + c + d) + e == (a + b) + c + (d + e)
  {
  }

  lemma AllWhitespaceAppend(a: string, b: string)
    requires AllWhitespace(a) && AllWhitespace(b)
    ensures AllWhitespace(a + b)
  {
    assert forall k :: |a| <= k < |a + b| ==> (a + b)[k] == b[k - |a|];
  }

  /** Spaces anywhere do not matter: deleting them first changes nothing. */
  lemma NormalizeIgnoresSpaces(s: string)
    ensures Normalize(RemoveSpaces(s)) == Normalize(s)
  {
    var core := Strip(s);
    StripRemoveSpaces(s);
    LowerRemoveSpacesCommute(core);
    RemoveSpacesIdempotent(RemoveSpaces(Lower(core)));
  }

  /** `strip()` only removes characters: whatever is in the result was in the input. */
  lemma StripKeepsOnlyInput(s: string, c: char)
    ensures c in Strip(s) ==> c in s
  {
    var start := SkipLeading(s, 0);
    if c in Strip(s) {
      var j :| 0 <= j < |Strip(s)| && Strip(s)[j] == c;
      assert s[start + j] == c;
    }
  }

  /** Lowercasing neither adds nor removes a whitespace character. */
  lemma LowerKeepsWhitespaceChar(s: string, c: char)
    requires IsWhitespace(c)
    ensures c in Lower(s) <==> c in s
  {
    if c in Lower(s) {
      var k :| 0 <= k < |s| && Lower(s)[k] == c;
      assert LowerChar(s[k]) == c;
    }
    if c in s {
      var k :| 0 <= k < |s| && s[k] == c;
      assert Lower(s)[k] == c;
    }
  }

  /** Space removal keeps exactly the characters other than U+0020. */
  lemma RemoveSpacesKeepsChar(s: string, c: char)
    requires c != ' '
    ensures c in RemoveSpaces(s) <==> c in s
  {
    assert c in RemoveSpaces(s) <==> c in multiset(RemoveSpaces(s));
    assert c in s <==> c in multiset(s);
  }

  /** A whitespace character other than U+0020 inside stripped text survives normalisation. */
  lemma NormalizeKeepsInnerWhitespace(s: string, c: char)
    requires IsWhitespace(c) && c != ' '
    requires Stripped(s) && c in s
    ensures c in Normalize(s)
  {
    assert s == [] + s + [];
    StripOfPadded([], s, []);
    var lowered := Lower(Strip(s));
    LowerKeepsWhitespaceChar(s, c);
    RemoveSpacesKeepsChar(lowered, c);
    assert Normalize(s) == RemoveSpaces(lowered);
  }

  /** Normalisation never introduces a whitespace character. */
  lemma NormalizeAddsNoWhitespace(s: string, c: char)
    requires IsWhitespace(c)
    ensures c in Normalize(s) ==> c in s
  {
    var lowered := Lower(Strip(s));
    StripKeepsOnlyInput(s, c);
    LowerKeepsWhitespaceChar(Strip(s), c);
    assert Normalize(s) == RemoveSpaces(lowered);
    if c != ' ' {
      RemoveSpacesKeepsChar(lowered, c);
    }
  }

  /** `s` starts with `prefix`. */
  predicate IsPrefix(prefix: string, s: string) {
    |prefix| <= |s| && s[..|prefix|] == prefix
  }

  /** `needle` occurs in `haystack` starting at index `i`. */
  ghost predicate OccursAt(needle: string, haystack: string, i: int) {
    0 <= i <= |haystack| && IsPrefix(needle, haystack[i..])
  }

  /** Python's `needle in haystack` for strings. */
  function IsSubstring(needle: string, haystack: string): (r: bool)
    ensures r <==> exists i :: OccursAt(needle, haystack, i)
  {
    if IsPrefix(needle, haystack) then
      assert OccursAt(needle, haystack, 0);
      true
    else if haystack == [] then
      assert forall i :: OccursAt(needle, haystack, i) ==> i == 0;
      false
    else
      var r := IsSubstring(needle, haystack[1..]);
      assert r ==> exists i :: OccursAt(needle, haystack, i) by {
        if r {
          var j :| OccursAt(needle, haystack[1..], j);
          assert haystack[1..][j..] == haystack[j + 1..];
          assert OccursAt(needle, haystack, j + 1);
        }
      }
      assert (exists i :: OccursAt(needle, haystack, i)) ==> r by {
        if exists i :: OccursAt(needle, haystack, i) {
          var i :| OccursAt(needle, haystack, i);
          assert i != 0;
          assert haystack[1..][i - 1..] == haystack[i..];
          assert OccursAt(needle, haystack[1..], i - 1);
        }
      }
      r
  }

  /** A substring of a substring is a substring. */
  lemma SubstringTransitive(a: string, b: string, c: string)
    requires IsSubstring(a, b) && IsSubstring(b, c)
    ensures IsSubstring(a, c)
  {
    var i :| OccursAt(a, b, i);
    var j :| OccursAt(b, c, j);
    assert c[j..][..|b|] == b;
    assert b[i..][..|a|] == a;
    assert c[i + j..][..|a|] == a by {
      forall k | 0 <= k < |a|
        ensures c[i + j..][..|a|][k] == a[k]
      {
        assert a[k] == b[i + k];
        assert b[i + k] == c[j..][i + k];
      }
    }
    assert OccursAt(a, c, i + j);
  }
}

=== FILE: wrappers.dfy ===
/** The optional value used wherever the game reads `None` (an empty queue, no current question). */
module Wrappers {

  datatype Option<+T> = None | Some(value: T)
}
